=== FILE: README.md ===
# Buffer manager of the DMDS25 disk-backed B-tree, in Dafny

The index keeps B-tree nodes as rows of flat text files. The buffer manager
pages those rows in and out of a fixed pool of ten in-memory slots. This
project models the two parts of the manager that hold real logic:

- **The slot pool.** `Pin` opens a file, takes the first slot holding the
  empty page, decodes the requested row into it and maps the row to the
  slot. `Unpin` frees a slot and drops the map entry that points at it.
  `Open`, `Close` and `Delete` handle the transient file buffer and the files.
  All of these are pure functions over an immutable `Manager` value
  (`buffer_manager.dfy`). Lemmas about how they keep the page map and the
  pool in step are in `consistency.dfy`.
- **The row codec.** A file is rows separated by `\n`. A row is 13 fields
  separated by `;`: six keys, then seven values, each a decimal uint64 or
  empty for 0. `deserialize` and `serialize` are modelled in `codec.dfy`. They
  rest on models of Go's `strings.Split` (`strings.dfy`) and of
  `strconv.FormatUint`/`ParseUint` (`strconv.dfy`). The page record is in
  `page.dfy`, and the error kinds and result types are in `outcomes.dfy`.

The file system is a parameter `disk: map<string, string>` from full path to
content. An operation that writes returns the new map. Go's randomised map
iteration order, used by `RemoveMapEntryByValue`, is an explicit parameter
`order`. Any enumeration of the map's keys is allowed, and
`UnpinOrderIrrelevant` shows the choice does not matter while the bookkeeping
is consistent.

### What the code does where a simpler reading would differ

The model follows the code in each of these cases:

- A row is thirteen fields, and a flushed row is meant to read back as the
  same page. But `serialize` writes `;` after every field, not just between
  fields, so a written row splits into 14 pieces, and `deserialize` refuses it
  (`SerializedRowRejected`). What does hold is shown by
  `SerializedFieldsDecode` and `NormalRowRewrite`: the first 13 pieces decode
  to the page, and a row of normal fields comes back with one extra `;`. No
  decode/encode round trip is claimed.
- `serialize` replaces the row whose index equals the *slot* index
  (`src/BufferManager.go:201`), not the page's own row. It reads the file
  from `dir + dir + name`, because `Open` adds the directory again, and
  writes it to `dir + name`. Every row, including the last, is followed by
  `\n`. Paths are compared as strings. So only when `dir` is empty, and
  the two paths are the same string, does a flush rewrite the file it read
  and add one row to it (`SerializeAddsOneRow`). Otherwise the file read is
  a different path. When that path is missing, whatever the file held is
  replaced by one row: the encoded page for slot 0, an empty row for any
  other slot (`SerializeIgnoresOwnFile`).
- The page map is keyed by the row number alone, not by file
  (`src/BufferManager.go:53`, `114`). So two files sharing a manager collide
  on row numbers. Pinning row 0 of one file while row 0 of another is
  resident overwrites the other file's map entry. Its page stays in its slot
  with no row naming it (`PinResidentRowBreaksConsistency`).
- The page map is meant to name each occupied slot exactly once. The code
  keeps this only if no caller pins a row number that is already in the
  map, from whatever file. It also requires that no caller pins,
  from a file with an empty name, a row whose 13 fields all read as 0.
  Only then does the stored page equal `Page{}`, so the slot still looks free
  while the map names it (`BlankPinBreaksConsistency`).
- A Pin refused for a full pool or for the row's field count returns before
  it closes the file (`src/BufferManager.go:106-108`, `119`). The file stays
  open, and the next `Close` succeeds (`FailedPinLeavesFileOpen`).
- A non-empty field is parsed as a decimal uint64, and the parse error is
  discarded. Go's `ParseUint` reads the digits from left to right. If the
  digits read so far exceed the uint64 range, the field reads as the largest
  uint64, even if a non-digit follows (`OverflowBeforeNonDigit`). Otherwise a
  field with a non-digit reads as 0.
- `Unpin` frees the slot before it searches the map. When no map entry points
  at the slot, `Unpin` returns an error but the slot stays free.

## Model

| member | source | states |
|---|---|---|
| BufferManager.Create | src/BufferManager.go:56-59 | a new manager has every slot empty, an empty page map and no open file, and its bookkeeping is consistent |
| BufferManager.Open | src/BufferManager.go:61-66 | reads `dir + fileID` and succeeds exactly when it exists; a failed read leaves the buffer nil but still records the name; slots and map untouched |
| BufferManager.OpenIdempotent | src/BufferManager.go:89-96 | the second, identical Open at the start of Pin changes nothing beyond the first |
| BufferManager.Close | src/BufferManager.go:68-77 | fails exactly when no buffer is held and then changes nothing; otherwise drops buffer and name, slots and map untouched |
| BufferManager.CloseAfterOpen | src/BufferManager.go:61-77 | on a manager holding no file, Close undoes a successful Open exactly and a second Close is refused; after a failed Open, Close is refused and the recorded name stays |
| BufferManager.Delete | src/BufferManager.go:79-86 | removes exactly `dir + fileID` and keeps every other file; refused exactly when that file is absent |
| BufferManager.FirstEmptySlot | src/BufferManager.go:101-104 | the slot found holds the empty page and every earlier slot is occupied; none is found exactly when all are occupied |
| BufferManager.Pin | src/BufferManager.go:88-120 | missing file gives an I/O error; full pool gives a capacity error; otherwise it succeeds iff the row has 13 fields; on success the index is the first empty slot below 10, only that slot changes, it holds the decoded row named after the file, the row maps to it and the file is closed; on any error slots and map are unchanged and the file read stays open; the directory is never changed |
| BufferManager.FailedPinLeavesFileOpen | src/BufferManager.go:106-119 | after a refused Pin the next Close succeeds exactly when the file could be read, since the capacity and format errors return before the file is closed |
| BufferManager.RemoveMapEntryByValue | src/BufferManager.go:136-144 | succeeds iff some key maps to the value, and then removes exactly the first such key in iteration order |
| BufferManager.RemoveOrderIrrelevant | src/BufferManager.go:137-141 | for an injective map the result does not depend on the iteration order |
| BufferManager.Unpin | src/BufferManager.go:122-134 | an empty slot is refused with nothing changed; otherwise exactly that slot becomes empty; success iff some row maps to the slot, and then exactly one such row leaves the map; on failure the map is unchanged |
| BufferManager.Serialize | src/BufferManager.go:193-241 | writes only `dir + name` of the page; its rows are the rows read from `dir + dir + name` with the row at the slot index replaced by the encoded page, plus a final empty row; slots, map and directory untouched, buffer closed |
| BufferManager.SerializeAddsOneRow | src/BufferManager.go:195-235 | with an empty directory the file read is the file written, each flush adds exactly one row, and a slot index past the last row only appends a newline |
| BufferManager.SerializeIgnoresOwnFile | src/BufferManager.go:195-222 | when `dir + dir + name` is missing, whatever `dir + name` held is replaced by one row and its newline: the encoded page for slot 0, an empty row for any other slot |
| RowCodec.Deserialize | src/BufferManager.go:149-188 | succeeds iff the selected row has exactly 13 fields; the error distinguishes a missing buffer or name; key k is field k and value k is field 6+k, an empty field giving 0; the page is named after the open file |
| RowCodec.DecodeRow | src/BufferManager.go:160-187 | refuses any field count other than 13; otherwise decodes keys then values field by field |
| RowCodec.DecodeEncodeField | src/BufferManager.go:203-205 | every uint64 written as a field (decimal, or nothing for 0) reads back as itself |
| RowCodec.EncodeDecodeField | src/BufferManager.go:170-172 | every normal field (empty, or canonical non-zero decimal within uint64) is written back exactly as read |
| RowCodec.EncodeField | src/BufferManager.go:203-205 | a field is empty exactly for 0; otherwise it is the canonical decimal of the value, with no leading zero |
| RowCodec.DecodeField | src/BufferManager.go:170-174 | an empty field reads as 0; a decimal within uint64 reads as its value; digits beyond the range read as the largest uint64; a field with a non-digit and no overflow before it reads as 0, the parse error being dropped |
| RowCodec.EncodeRow | src/BufferManager.go:202-214 | a serialized row splits on `;` into the 13 encoded fields plus an empty 14th piece, and has no newline |
| RowCodec.SerializedRowRejected | src/BufferManager.go:160-162 | decoding a row serialize wrote fails with the field-count error |
| RowCodec.SerializedFieldsDecode | src/BufferManager.go:165-186 | the first 13 pieces of a serialized row decode to the original page |
| RowCodec.NormalRowRewrite | src/BufferManager.go:200-215 | a row of 13 normal fields decodes to a page whose serialized row is the original row plus one `;` |
| RowCodec.RewriteFile | src/BufferManager.go:198-219 | only the row whose index equals the slot index is replaced, every other row is kept verbatim, every row gets a trailing newline, and an out-of-range index just appends a newline |
| RowCodec.RootRowExample | src/BufferManager.go:151-187 | an illustrative root row with keys 1, 11 and children 2, 12 decodes to that page |
| Consistency.MapSizeIsOccupiedCount | src/BufferManager.go:110-116 | with consistent bookkeeping the page map has exactly as many entries as there are occupied slots |
| Consistency.PinKeepsConsistent | src/BufferManager.go:110-116 | on a consistent manager, pinning a row number not yet in the page map, from whatever file, keeps the bookkeeping consistent, provided the stored page is not `Page{}` (always so for a named file) |
| Consistency.NamedPinStoresPage | src/BufferManager.go:187 | a page pinned from a file with a non-empty name never equals the free-slot marker |
| Consistency.BlankPinBreaksConsistency | src/BufferManager.go:101-116 | a successful Pin that stores `Page{}` can only come from an empty file name, and it leaves the map naming a slot that looks free, so the bookkeeping is broken |
| Consistency.PinTakesUnmappedSlot | src/BufferManager.go:101-110 | on a consistent manager, Pin never hands out a slot that a mapped row is using |
| Consistency.PinResidentRowBreaksConsistency | src/BufferManager.go:110-114 | pinning a row number already in the page map, from the same file or any other, fills a second slot without growing the map; the page in the earlier slot stays in memory and no row names it any more |
| Consistency.UnpinKeepsConsistent | src/BufferManager.go:122-134 | Unpin keeps the bookkeeping consistent and, on a consistent manager, succeeds exactly on occupied slots |
| Consistency.UnpinOrderIrrelevant | src/BufferManager.go:136-143 | on a consistent manager the map iteration order does not affect Unpin |
| Consistency.PinThenUnpinRestores | src/BufferManager.go:110-128 | on a consistent manager, for a row number not yet in the page map, from whatever file, whose stored page is not `Page{}`, unpinning the slot a Pin just filled restores the original slots and page map |
| Consistency.FullPoolUnpinThenPin | src/BufferManager.go:101-127 | after one Unpin from a full pool the next Pin is not refused for capacity and, if it succeeds, reuses the freed slot |
| Pages.EmptyMeansAllZero | src/Page.go:8-12 | a page is the free-slot marker exactly when its name is empty and all keys and values are 0 |
| Pages.Shape | src/Page.go:10-11 | every page has 6 key slots and one more value slot than key slots |
| Strings.Split | src/BufferManager.go:151-152 | the pieces contain no separator, there is at least one, and joining them with the separator gives the input back |
| Strings.SplitCount | src/BufferManager.go:152 | a row has one more field than it has `;` characters |
| Strconv.FormatUint | src/BufferManager.go:204 | the decimal written is canonical, all digits with no leading zero except for 0 itself, and starts with `0` exactly for 0 |
| Strconv.ParseUint | src/BufferManager.go:171 | the empty string and a non-digit after an in-range digit prefix give 0; a digit prefix beyond uint64 gives the largest uint64; a decimal within range gives its value |
| Strconv.ParseUintScan | src/BufferManager.go:171 | Go's left-to-right digit loop with its cutoff and overflow tests gives exactly ParseUint's result |
| Strconv.OverflowBeforeNonDigit | src/BufferManager.go:171 | digits beyond uint64 followed by a non-digit read as the largest uint64, not as 0 |
| Strconv.ParseFormatUint | src/BufferManager.go:171 | ParseUint reads FormatUint's decimal of any uint64 back as that number |
| Strconv.FormatUintOfValue | src/BufferManager.go:204 | FormatUint reproduces every canonical decimal spelling from its value |

## Left out

- File I/O: `os.ReadFile`, `os.Remove`, `os.OpenFile`, `os.Truncate` and `file.Write` are replaced by the `disk` map. `Delete` assumes `os.Remove` succeeds once the file is readable. The `log.Fatalf` exits after failed writes (`src/BufferManager.go:222-235`) are not modelled.
- Paths are compared as strings. A real file system treats `././x` and `./x` as the same file. This aliasing is not modelled, so with `dir` set to `./` the model reads and writes two different keys where Go reaches one file.
- Go panics are preconditions: the row index in `deserialize` (line 151), and the slot index below 10 in `Unpin` and `serialize`.
- The `tmpFileData == nil` guard in `Pin` (lines 97-99) is left out. It cannot fire after a successful `Open`.
- The repeated `Open` in `Pin` (lines 89-96) is modelled once. `OpenIdempotent` shows the second call has no effect.
- The `pageId` field set at line 187 is left out. It is not declared in `src/Page.go`, and the page is modelled as declared there.
- The Page.go doc comment says leaf pages use only the first 6 values. No code enforces this, so there is nothing to state.
- The `memory` argument of `CreateNewBufferManager` is recorded but never read.
- Strings are sequences of characters, not bytes. The separators `\n` and `;` are single ASCII bytes, so splitting is the same either way.
- The B-tree (`src/BTree.go`: `get`, `push` and `getRange` return constants) is not part of this model.
- The node hierarchy (`src/Node.go`), the interfaces (`src/IBufferManager.go`, `src/IBTree.go`), the demo (`main.go`) and the test mocks are not part of this model.
- `src/Loader.go` is not part of this model. Its `Load` is `Pin(name, 0)` followed by a fatal exit on error.
- There is no concurrency: the source is single-threaded.

=== FILE: buffer_manager.dfy ===
/** The buffer manager: a fixed pool of ten page slots, a map from on-disk
    row to slot, and a transient buffer holding the text of the file last
    opened. Every operation is a pure function from the old manager (and,
    for file access, the disk) to the new manager and the operation's
    result. */
module BufferManager {
  import opened Outcomes
  import opened Strconv
  import opened Pages
  import RowCodec

  const PoolSize: nat := 10

  type Pool = s: seq<Page> | |s| == PoolSize
    witness [Empty, Empty, Empty, Empty, Empty, Empty, Empty, Empty, Empty, Empty]

  /** The file system the manager reads and writes: full path to content. */
  type Disk = map<string, string>

  /** `buffer` is the file data read by the last Open (None for Go's nil
      slice) and `openName` the name that Open was given. `memory` is
      recorded at creation and never consulted. */
  datatype Manager = Manager(
    pages: Pool,
    dir: string,
    memory: u64,
    buffer: Option<string>,
    openName: string,
    pageMap: map<u64, u64>)

  /** The manager after an operation, and what the operation returned. */
  datatype Step<T> = Step(next: Manager, result: Result<T>)

  /** The manager after a flush, and the disk it wrote. */
  datatype Flush = Flush(next: Manager, disk: Disk)

  /** The slots that hold a page. */
  function Occupied(m: Manager): (occupied: set<u64>) {
    set i: u64 | 0 <= i < PoolSize && !IsEmpty(m.pages[i])
  }

  ghost predicate Injective(pm: map<u64, u64>) {
    forall a, b :: a in pm && b in pm && a != b ==> pm[a] != pm[b]
  }

  /** The bookkeeping the page map is meant to keep: every occupied slot is
      named by exactly one row of the map, and the map names no other slot. */
  ghost predicate Consistent(m: Manager) {
    m.pageMap.Values == Occupied(m) && Injective(m.pageMap)
  }

  /** CreateNewBufferManager: every slot free, nothing mapped, nothing open. */
  function Create(dir: string, memory: u64): (m: Manager)
    ensures forall i :: 0 <= i < PoolSize ==> IsEmpty(m.pages[i])
    ensures m.pageMap == map[] && m.buffer == None && m.openName == ""
    ensures m.dir == dir
    ensures Consistent(m)
  {
    var m := Manager([Empty, Empty, Empty, Empty, Empty, Empty, Empty, Empty, Empty, Empty],
                     dir, memory, None, "", map[]);
    assert Occupied(m) == {};
    m
  }

  /** Open: read `dir + fileID` into the buffer and remember the name; a
      failed read leaves the buffer nil but still records the name. */
  function Open(m: Manager, disk: Disk, fileID: string): (s: Step<()>)
    ensures s.next.pages == m.pages && s.next.pageMap == m.pageMap && s.next.dir == m.dir
    ensures s.next.memory == m.memory
    ensures s.next.openName == fileID
    ensures s.result.Ok? <==> m.dir + fileID in disk
    ensures s.result.Ok? ==> s.next.buffer == Some(disk[m.dir + fileID])
    ensures s.result.Err? ==> s.next.buffer == None && s.result.error == IoError
  {
    var path := m.dir + fileID;
    if path in disk then Step(m.(buffer := Some(disk[path]), openName := fileID), Ok(()))
    else Step(m.(buffer := None, openName := fileID), Err(IoError))
  }

  /** Opening the same file twice in a row is the same as opening it once,
      so the repeated Open at the start of Pin changes nothing. */
  lemma OpenIdempotent(m: Manager, disk: Disk, fileID: string)
    ensures Open(Open(m, disk, fileID).next, disk, fileID) == Open(m, disk, fileID)
  {
  }

  /** Close: drop the buffer and the name; refused when no buffer is held. */
  function Close(m: Manager): (s: Step<()>)
    ensures s.result.Err? <==> m.buffer.None?
    ensures s.result.Err? ==> s.next == m && s.result.error == NoFileToClose
    ensures s.result.Ok? ==> s.next.buffer == None && s.next.openName == ""
    ensures s.next.pages == m.pages && s.next.pageMap == m.pageMap && s.next.dir == m.dir
    ensures s.next.memory == m.memory
  {
    if m.buffer.None? then Step(m, Err(NoFileToClose))
    else Step(m.(buffer := None, openName := ""), Ok(()))
  }

  /** Close undoes a successful Open of a manager holding no file, and a
      second Close is refused. After a failed Open nothing is held, so Close
      is refused and the name Open recorded stays. */
  lemma CloseAfterOpen(m: Manager, disk: Disk, fileID: string)
    requires m.buffer == None && m.openName == ""
    ensures m.dir + fileID in disk ==> Close(Open(m, disk, fileID).next) == Step(m, Ok(()))
    ensures Close(Close(Open(m, disk, fileID).next).next).result == Err(NoFileToClose)
    ensures m.dir + fileID !in disk ==>
      Close(Open(m, disk, fileID).next).next.openName == fileID
  {
  }

  /** Delete: remove `dir + fileID` from the disk; refused when it cannot be
      read. */
  function Delete(m: Manager, disk: Disk, fileID: string): (r: Result<Disk>)
    ensures r.Ok? <==> m.dir + fileID in disk
    ensures r.Err? ==> r.error == NoFileToDelete
    ensures r.Ok? ==> r.value.Keys == disk.Keys - {m.dir + fileID}
    ensures r.Ok? ==> forall p :: p in r.value ==> r.value[p] == disk[p]
  {
    var path := m.dir + fileID;
    if path in disk then Ok(disk - {path}) else Err(NoFileToDelete)
  }

  /** The first slot at or after `from` that holds the empty page. */
  function FirstEmptySlot(pages: seq<Page>, from: nat): (r: Option<nat>)
    requires from <= |pages|
    ensures r.Some? ==> from <= r.value < |pages| && IsEmpty(pages[r.value])
    ensures r.Some? ==> forall j :: from <= j < r.value ==> !IsEmpty(pages[j])
    ensures r.None? <==> forall j :: from <= j < |pages| ==> !IsEmpty(pages[j])
    decreases |pages| - from
  {
    if from == |pages| then None
    else if IsEmpty(pages[from]) then Some(from)
    else FirstEmptySlot(pages, from + 1)
  }

  /** Pin indexes the rows of the file without a bounds check once the file
      is read and a free slot is found: the row must exist by then. */
  predicate PinDefined(m: Manager, disk: Disk, fileID: string, pageInFile: u64) {
    m.dir + fileID in disk && FirstEmptySlot(m.pages, 0).Some? ==>
      pageInFile < |RowCodec.Rows(disk[m.dir + fileID])|
  }

  /** The fields of row `pageInFile` of the file Pin reads. */
  function PinnedFields(m: Manager, disk: Disk, fileID: string, pageInFile: u64): (fields: seq<string>)
    requires m.dir + fileID in disk
    requires pageInFile < |RowCodec.Rows(disk[m.dir + fileID])|
  {
    RowCodec.Fields(RowCodec.Rows(disk[m.dir + fileID])[pageInFile])
  }

  /** Pin: read the file, take the first free slot, decode the row into it,
      close the file and map the row to the slot. */
  function Pin(m: Manager, disk: Disk, fileID: string, pageInFile: u64): (s: Step<u64>)
    requires PinDefined(m, disk, fileID, pageInFile)
    ensures m.dir + fileID !in disk ==> s.result == Err(IoError)
    ensures m.dir + fileID in disk && (forall j :: 0 <= j < PoolSize ==> !IsEmpty(m.pages[j])) ==>
      s.result == Err(NoFreeSlot)
    ensures m.dir + fileID in disk && FirstEmptySlot(m.pages, 0).Some? ==>
      (s.result.Ok? <==> |PinnedFields(m, disk, fileID, pageInFile)| == RowCodec.FieldCount)
    ensures m.dir + fileID in disk && FirstEmptySlot(m.pages, 0).Some? && s.result.Err? ==>
      s.result.error == if fileID == "" then NoOpenFile else WrongFieldCount
    ensures s.next.dir == m.dir && s.next.memory == m.memory
    ensures s.result.Err? ==> s.next.pages == m.pages && s.next.pageMap == m.pageMap && s.next.openName == fileID
    ensures s.result.Err? ==> s.next.buffer == if m.dir + fileID in disk then Some(disk[m.dir + fileID]) else None
    ensures s.result.Ok? ==>
      (var i := s.result.value;
      && m.dir + fileID in disk
      && i < PoolSize && IsEmpty(m.pages[i])
      && (forall j :: 0 <= j < i ==> !IsEmpty(m.pages[j]))
      && pageInFile < |RowCodec.Rows(disk[m.dir + fileID])|
      && s.next.pages[i] == RowCodec.DecodeRow(fileID, PinnedFields(m, disk, fileID, pageInFile)).value
      && (forall j :: 0 <= j < PoolSize && j != i ==> s.next.pages[j] == m.pages[j])
      && s.next.pageMap == m.pageMap[pageInFile := i]
      && s.next.buffer == None && s.next.openName == "")
  {
    var loaded := Open(m, disk, fileID);
    if loaded.result.Err? then Step(loaded.next, Err(loaded.result.error))
    else
      match FirstEmptySlot(loaded.next.pages, 0)
      case None => Step(loaded.next, Err(NoFreeSlot))
      case Some(i) =>
        match RowCodec.Deserialize(loaded.next.buffer, loaded.next.openName, pageInFile)
        case Err(e) => Step(loaded.next, Err(e))
        case Ok(page) =>
          var closed := Close(loaded.next.(pages := loaded.next.pages[i := page])).next;
          Step(closed.(pageMap := closed.pageMap[pageInFile := i as u64]), Ok(i as u64))
  }

  /** A Pin refused for capacity or for the row's format returns before it
      closes the file, so the file stays open and the next Close succeeds;
      only a Pin whose read failed leaves nothing to close. */
  lemma FailedPinLeavesFileOpen(m: Manager, disk: Disk, fileID: string, pageInFile: u64)
    requires PinDefined(m, disk, fileID, pageInFile)
    requires Pin(m, disk, fileID, pageInFile).result.Err?
    ensures Close(Pin(m, disk, fileID, pageInFile).next).result.Ok? <==> m.dir + fileID in disk
  {
  }

  /** `order` is the order in which Go's `range` visits the map: every key,
      and nothing else. */
  ghost predicate RangeOrder(order: seq<u64>, pm: map<u64, u64>) {
    forall k :: k in pm <==> k in order
  }

  /** The first position at or after `from` whose key maps to `value`. */
  function FirstKeyWithValue(pm: map<u64, u64>, value: u64, order: seq<u64>, from: nat): (r: Option<nat>)
    requires from <= |order|
    ensures r.Some? ==> from <= r.value < |order| && order[r.value] in pm && pm[order[r.value]] == value
    ensures r.Some? ==> forall j :: from <= j < r.value ==> order[j] !in pm || pm[order[j]] != value
    ensures r.None? ==> forall j :: from <= j < |order| ==> order[j] !in pm || pm[order[j]] != value
    decreases |order| - from
  {
    if from == |order| then None
    else if order[from] in pm && pm[order[from]] == value then Some(from)
    else FirstKeyWithValue(pm, value, order, from + 1)
  }

  /** RemoveMapEntryByValue: delete the first key visited whose value is
      `value`; refused when no key has that value. */
  function RemoveMapEntryByValue(pm: map<u64, u64>, value: u64, order: seq<u64>): (r: Result<map<u64, u64>>)
    requires RangeOrder(order, pm)
    ensures r.Ok? <==> value in pm.Values
    ensures r.Err? ==> r.error == NoMapEntry
    ensures r.Ok? ==>
      exists n :: (0 <= n < |order| && order[n] in pm && pm[order[n]] == value
                   && (forall j :: 0 <= j < n ==> pm[order[j]] != value)
                   && r.value == pm - {order[n]})
  {
    match FirstKeyWithValue(pm, value, order, 0)
    case None => Err(NoMapEntry)
    case Some(n) => Ok(pm - {order[n]})
  }

  /** With an injective map the order of visiting does not matter. */
  lemma RemoveOrderIrrelevant(pm: map<u64, u64>, value: u64, order1: seq<u64>, order2: seq<u64>)
    requires Injective(pm)
    requires RangeOrder(order1, pm) && RangeOrder(order2, pm)
    ensures RemoveMapEntryByValue(pm, value, order1) == RemoveMapEntryByValue(pm, value, order2)
  {
  }

  /** Unpin: free slot `pageID` and forget the row mapped to it. The slot is
      freed before the map is searched, so it stays free even when no row
      maps to it. */
  function Unpin(m: Manager, pageID: u64, order: seq<u64>): (s: Step<()>)
    requires pageID < PoolSize
    requires RangeOrder(order, m.pageMap)
    ensures IsEmpty(m.pages[pageID]) ==> s == Step(m, Err(NoPageAtSlot))
    ensures !IsEmpty(m.pages[pageID]) ==>
      IsEmpty(s.next.pages[pageID]) && forall j :: 0 <= j < PoolSize && j != pageID ==> s.next.pages[j] == m.pages[j]
    ensures s.result.Ok? <==> !IsEmpty(m.pages[pageID]) && pageID in m.pageMap.Values
    ensures s.result.Ok? ==> exists row :: row in m.pageMap && m.pageMap[row] == pageID && s.next.pageMap == m.pageMap - {row}
    ensures s.result.Err? ==> s.next.pageMap == m.pageMap
    ensures s.next.buffer == m.buffer && s.next.openName == m.openName && s.next.dir == m.dir
    ensures s.next.memory == m.memory
  {
    if IsEmpty(m.pages[pageID]) then Step(m, Err(NoPageAtSlot))
    else
      var cleared := m.(pages := m.pages[pageID := Empty]);
      match RemoveMapEntryByValue(m.pageMap, pageID, order)
      case Err(e) => Step(cleared, Err(e))
      case Ok(pm) => Step(cleared.(pageMap := pm), Ok(()))
  }

  /** serialize: write the page in slot `pageID` back to its file. The file
      is read from `dir + dir + name` (Open prefixes the directory to a path
      that already has it) and written to `dir + name`; the row replaced is
      the one whose index equals the slot index. */
  function Serialize(m: Manager, disk: Disk, pageID: u64): (f: Flush)
    requires pageID < PoolSize
    ensures f.disk.Keys == disk.Keys + {m.dir + m.pages[pageID].name}
    ensures forall p :: p in disk && p != m.dir + m.pages[pageID].name ==> f.disk[p] == disk[p]
    ensures RowCodec.Rows(f.disk[m.dir + m.pages[pageID].name]) ==
      RowCodec.ReplaceRow(RowCodec.Rows(SerializeSource(m, disk, pageID)), pageID, RowCodec.EncodeRow(m.pages[pageID])) + [""]
    ensures f.next.pages == m.pages && f.next.pageMap == m.pageMap && f.next.buffer == None
    ensures f.next.dir == m.dir && f.next.memory == m.memory
    ensures f.next.openName == if m.dir + m.dir + m.pages[pageID].name in disk then "" else m.dir + m.pages[pageID].name
  {
    var page := m.pages[pageID];
    var loaded := Open(m, disk, m.dir + page.name).next;
    assert m.dir + (m.dir + page.name) == m.dir + m.dir + page.name;
    assert RowCodec.FileText(loaded.buffer) == SerializeSource(m, disk, pageID);
    var out := RowCodec.RewriteFile(RowCodec.FileText(loaded.buffer), pageID, page);
    var closed := Close(loaded).next;
    Flush(Close(closed).next, disk[m.dir + page.name := out])
  }

  /** The text serialize reads before rewriting: the content of
      `dir + dir + name`, or nothing when that path cannot be read. */
  function SerializeSource(m: Manager, disk: Disk, pageID: u64): (text: string)
    requires pageID < PoolSize
  {
    var source := m.dir + m.dir + m.pages[pageID].name;
    if source in disk then disk[source] else ""
  }

  /** Paths are compared as strings. Only when `dir + dir + name` and
      `dir + name` are the same string (an empty `dir`) does serialize
      rewrite the file it read, and then every flush adds one row to it;
      past the end of the file that row is just a newline. */
  lemma SerializeAddsOneRow(m: Manager, disk: Disk, pageID: u64)
    requires pageID < PoolSize
    requires m.dir == ""
    requires m.pages[pageID].name in disk
    ensures var path := m.pages[pageID].name;
      |RowCodec.Rows(Serialize(m, disk, pageID).disk[path])| == |RowCodec.Rows(disk[path])| + 1
    ensures var path := m.pages[pageID].name;
      pageID >= |RowCodec.Rows(disk[path])| ==> Serialize(m, disk, pageID).disk[path] == disk[path] + "\n"
  {
    var path := m.pages[pageID].name;
    assert m.dir + m.dir + path == path && m.dir + path == path;
    assert SerializeSource(m, disk, pageID) == disk[path];
  }

  /** With a non-empty `dir` the file read is another path: when it is
      missing, serialize starts from an empty text, and whatever
      `dir + name` held is replaced by one row: the encoded page for slot 0,
      an empty row for any other slot. */
  lemma SerializeIgnoresOwnFile(m: Manager, disk: Disk, pageID: u64)
    requires pageID < PoolSize
    requires m.dir + m.dir + m.pages[pageID].name !in disk
    ensures var path := m.dir + m.pages[pageID].name;
      RowCodec.Rows(Serialize(m, disk, pageID).disk[path]) ==
        [if pageID == 0 then RowCodec.EncodeRow(m.pages[pageID]) else ""] + [""]
  {
    assert SerializeSource(m, disk, pageID) == "";
    assert RowCodec.Rows("") == [""];
  }
}

=== FILE: codec.dfy ===
/** The line-oriented disk format of the buffer manager. A file is rows
    separated by `\n`; a row is 13 fields separated by `;`, six keys then
    seven values, where an empty field stands for 0. */
module RowCodec {
  import opened Outcomes
  import opened Strings
  import opened Strconv
  import opened Pages

  const FieldCount: nat := KeyCount + ValueCount

  /** One field as serialize writes it: decimal when non-zero, nothing for 0. */
  function EncodeField(v: u64): (f: string)
    ensures f == "" <==> v == 0
    ensures v != 0 ==> IsCanonicalDecimal(f) && f[0] != '0' && DecimalValue(f) == v
  {
    if v == 0 then "" else FormatUintValue(v); FormatUint(v)
  }

  /** One field as deserialize reads it: nothing means 0, anything else goes
      through ParseUint with its error dropped. */
  function DecodeField(f: string): (v: u64)
    ensures f == "" ==> v == 0
    ensures AllDigits(f) && DecimalValue(f) <= MaxU64 ==> v == DecimalValue(f)
    ensures AllDigits(f) && DecimalValue(f) > MaxU64 ==> v == MaxU64
    ensures !AllDigits(f) && DecimalValue(LeadingDigits(f)) <= MaxU64 ==> v == 0
  {
    if f != "" then ParseUint(f) else 0
  }

  /** The fields the encoder can produce: empty, or the canonical decimal of
      a non-zero uint64. */
  predicate IsNormalField(f: string) {
    f == "" || (IsCanonicalDecimal(f) && f[0] != '0' && DecimalValue(f) <= MaxU64)
  }

  /** Every uint64 survives a write and a read of its field. */
  lemma DecodeEncodeField(v: u64)
    ensures DecodeField(EncodeField(v)) == v
  {
    if v != 0 {
      ParseFormatUint(v);
    }
  }

  /** Every normal field survives a read and a write; with DecodeEncodeField,
      EncodeField is a bijection from uint64 onto the normal fields. */
  lemma EncodeDecodeField(f: string)
    requires IsNormalField(f)
    ensures EncodeField(DecodeField(f)) == f
  {
    if f != "" {
      LeadingDigitBound(f);
      FormatUintOfValue(f);
    }
  }

  /** Encoded fields are normal and hold neither separator. */
  lemma EncodeFieldShape(v: u64)
    ensures IsNormalField(EncodeField(v))
    ensures ';' !in EncodeField(v) && '\n' !in EncodeField(v)
  {
    var f := EncodeField(v);
    if v != 0 {
      FormatUintValue(v);
      assert forall k :: 0 <= k < |f| ==> IsDigit(f[k]);
    }
  }

  /** `string(tmpFileData)`: a missing buffer reads as the empty string. */
  function FileText(buffer: Option<string>): (text: string) {
    if buffer.Some? then buffer.value else ""
  }

  function Rows(text: string): (rows: seq<string>) {
    Split(text, '\n')
  }

  function Fields(row: string): (fields: seq<string>) {
    Split(row, ';')
  }

  function DecodeFields(fields: seq<string>): (vs: seq<u64>)
    ensures |vs| == |fields|
    ensures forall k :: 0 <= k < |fields| ==> vs[k] == DecodeField(fields[k])
  {
    seq(|fields|, k requires 0 <= k < |fields| => DecodeField(fields[k]))
  }

  /** The page held in a row already split into fields, named after the file. */
  function DecodeRow(name: string, fields: seq<string>): (r: Result<Page>)
    ensures r.Ok? <==> |fields| == FieldCount
    ensures r.Err? ==> r.error == WrongFieldCount
    ensures r.Ok? ==> r.value.name == name
    ensures r.Ok? ==> forall k :: 0 <= k < KeyCount ==> r.value.keys[k] == DecodeField(fields[k])
    ensures r.Ok? ==> forall k :: 0 <= k < ValueCount ==> r.value.values[k] == DecodeField(fields[KeyCount + k])
  {
    if |fields| != FieldCount then Err(WrongFieldCount)
    else
      var keys := DecodeFields(fields[..KeyCount]);
      var values := DecodeFields(fields[KeyCount..]);
      Ok(Page(name, keys, values))
  }

  /** deserialize: row `pageInFile` of the buffered file text as a page
      named after the open file. The source indexes the rows without a
      bounds check, hence the precondition. */
  function Deserialize(buffer: Option<string>, openName: string, pageInFile: u64): (r: Result<Page>)
    requires pageInFile < |Rows(FileText(buffer))|
    ensures var fields := Fields(Rows(FileText(buffer))[pageInFile]);
      && (r.Ok? <==> |fields| == FieldCount)
      && (r.Err? ==> r.error == if buffer.None? || openName == "" then NoOpenFile else WrongFieldCount)
      && (r.Ok? ==> r.value.name == openName)
      && (r.Ok? ==> forall k :: 0 <= k < KeyCount ==>
            r.value.keys[k] == DecodeField(fields[k]) && (fields[k] == "" ==> r.value.keys[k] == 0))
      && (r.Ok? ==> forall k :: 0 <= k < ValueCount ==>
            r.value.values[k] == DecodeField(fields[KeyCount + k]) && (fields[KeyCount + k] == "" ==> r.value.values[k] == 0))
  {
    var fields := Fields(Rows(FileText(buffer))[pageInFile]);
    if (buffer.None? || openName == "") && |fields| != FieldCount then Err(NoOpenFile)
    else DecodeRow(openName, fields)
  }

  /** The 13 field texts of a page, keys first. */
  function EncodeFields(p: Page): (fs: seq<string>)
    ensures |fs| == FieldCount
  {
    seq(FieldCount, k requires 0 <= k < FieldCount =>
      EncodeField(if k < KeyCount then p.keys[k] else p.values[k - KeyCount]))
  }

  /** The row serialize writes for a page: every field followed by `;`.
      Because of the `;` after the last field, it splits into 14 pieces:
      the 13 fields and an empty one. It holds no newline. */
  function EncodeRow(p: Page): (row: string)
    ensures Fields(row) == EncodeFields(p) + [""]
    ensures |Fields(row)| == FieldCount + 1
    ensures '\n' !in row
  {
    EncodeFieldsFreeOf(p);
    SplitTerminated(EncodeFields(p), ';');
    TerminatedFreeOf(EncodeFields(p), ';', '\n');
    Terminated(EncodeFields(p), ';')
  }

  lemma EncodeFieldsFreeOf(p: Page)
    ensures FreeOf(EncodeFields(p), ';') && FreeOf(EncodeFields(p), '\n')
    ensures forall k :: 0 <= k < FieldCount ==> IsNormalField(EncodeFields(p)[k])
  {
    forall k | 0 <= k < FieldCount
      ensures ';' !in EncodeFields(p)[k] && '\n' !in EncodeFields(p)[k] && IsNormalField(EncodeFields(p)[k])
    {
      EncodeFieldShape(if k < KeyCount then p.keys[k] else p.values[k - KeyCount]);
    }
  }

  /** So deserialize refuses every row serialize writes. */
  lemma SerializedRowRejected(p: Page, name: string)
    ensures DecodeRow(name, Fields(EncodeRow(p))) == Err(WrongFieldCount)
  {
  }

  /** The first 13 pieces of a serialized row decode to the page it came from. */
  lemma SerializedFieldsDecode(p: Page)
    ensures |Fields(EncodeRow(p))| > FieldCount
    ensures DecodeRow(p.name, Fields(EncodeRow(p))[..FieldCount]) == Ok(p)
  {
    var fields := Fields(EncodeRow(p))[..FieldCount];
    assert fields == EncodeFields(p);
    var r := DecodeRow(p.name, fields);
    forall k | 0 <= k < KeyCount ensures r.value.keys[k] == p.keys[k] {
      DecodeEncodeField(p.keys[k]);
    }
    forall k | 0 <= k < ValueCount ensures r.value.values[k] == p.values[k] {
      DecodeEncodeField(p.values[k]);
    }
    assert r.value.keys == p.keys;
    assert r.value.values == p.values;
  }

  /** A row of 13 normal fields decodes to a page that serializes to the same
      row with one extra `;` appended. */
  lemma NormalRowRewrite(name: string, row: string)
    requires |Fields(row)| == FieldCount
    requires forall k :: 0 <= k < FieldCount ==> IsNormalField(Fields(row)[k])
    ensures DecodeRow(name, Fields(row)).Ok?
    ensures EncodeRow(DecodeRow(name, Fields(row)).value) == row + ";"
  {
    var fields := Fields(row);
    var p := DecodeRow(name, fields).value;
    forall k | 0 <= k < FieldCount ensures EncodeFields(p)[k] == fields[k] {
      EncodeDecodeField(fields[k]);
    }
    assert EncodeFields(p) == fields;
    TerminatedIsJoin(fields, ';');
  }

  /** `rows` with row `at` replaced; rows past the end stay as they are. */
  function ReplaceRow(rows: seq<string>, at: nat, row: string): (r: seq<string>) {
    seq(|rows|, k requires 0 <= k < |rows| => if k == at then row else rows[k])
  }

  /** The text serialize writes for the page held in slot `pageID`, given the
      text it read: the row whose index equals the slot index is replaced by
      the encoded page, and every row, the last one included, is followed by
      `\n`. */
  function RewriteFile(text: string, pageID: nat, page: Page): (out: string)
    ensures Rows(out) == ReplaceRow(Rows(text), pageID, EncodeRow(page)) + [""]
    ensures pageID < |Rows(text)| ==> Rows(out)[pageID] == EncodeRow(page)
    ensures forall k :: 0 <= k < |Rows(text)| && k != pageID ==> Rows(out)[k] == Rows(text)[k]
    ensures pageID >= |Rows(text)| ==> out == text + "\n"
  {
    var rows := ReplaceRow(Rows(text), pageID, EncodeRow(page));
    assert FreeOf(rows, '\n');
    SplitTerminated(rows, '\n');
    TerminatedIsJoin(Rows(text), '\n');
    assert pageID >= |Rows(text)| ==> rows == Rows(text);
    Terminated(rows, '\n')
  }

  /** A short field of digits reads as its decimal value. */
  lemma SmallField(f: string, v: nat)
    requires |f| <= 2 && AllDigits(f) && DecimalValue(f) == v
    ensures DecodeField(f) == v
  {
    assert DecimalValue(f) < 100;
  }

  /** An illustrative root row, `1;11;;;;;2;12;;;;;`: keys 1 and 11,
      children 2 and 12, every other field empty. The fields are a parameter
      fixed by the requires, and the row is built with Join, so that the
      verifier works on the 13 fields rather than unfolding a long string
      literal character by character. */
  lemma RootRowExample(fields: seq<string>)
    requires fields == ["1", "11", "", "", "", "", "2", "12", "", "", "", "", ""]
    ensures DecodeRow("startTree", Fields(Join(fields, ';'))) ==
      Ok(Page("startTree", [1, 11, 0, 0, 0, 0], [2, 12, 0, 0, 0, 0, 0]))
  {
    SplitJoin(fields, ';');
    RootRowKeys(fields[..KeyCount]);
    RootRowValues(fields[KeyCount..]);
  }

  /** The key fields of the illustrative root row. */
  lemma RootRowKeys(fields: seq<string>)
    requires fields == ["1", "11", "", "", "", ""]
    ensures DecodeFields(fields) == [1, 11, 0, 0, 0, 0]
  {
    SmallField("1", 1);
    SmallField("11", 11);
  }

  /** The value fields of the illustrative root row. */
  lemma RootRowValues(fields: seq<string>)
    requires fields == ["2", "12", "", "", "", "", ""]
    ensures DecodeFields(fields) == [2, 12, 0, 0, 0, 0, 0]
  {
    SmallField("2", 2);
    SmallField("12", 12);
  }

}

=== FILE: consistency.dfy ===
/** How Pin and Unpin treat the bookkeeping between the slot pool and the
    page map. The map is meant to name every occupied slot exactly once;
    the code keeps that only while callers never pin a row number that is
    already in the map, from whatever file (the map ignores the file name),
    and never pin, from a file with an empty name, a row whose 13 fields all
    read as 0 (the page would then equal `Page{}`). */
module Consistency {
  import opened Outcomes
  import opened Strconv
  import opened Pages
  import opened BufferManager
  import RowCodec

  /** An injective map has as many distinct values as keys. */
  lemma {:induction false} InjectiveCardinality(pm: map<u64, u64>)
    requires Injective(pm)
    ensures |pm.Values| == |pm|
    decreases |pm|
  {
    if |pm| > 0 {
      var k :| k in pm;
      var rest := pm - {k};
      assert rest.Keys == pm.Keys - {k};
      assert |rest| == |pm| - 1;
      InjectiveCardinality(rest);
      assert pm.Values == rest.Values + {pm[k]} by {
        forall v | v in pm.Values ensures v in rest.Values + {pm[k]} {
          var k' :| k' in pm && pm[k'] == v;
          if k' != k {
            assert rest[k'] == v;
          }
        }
      }
      assert pm[k] !in rest.Values;
    }
  }

  /** The page map has one entry per occupied slot. */
  lemma MapSizeIsOccupiedCount(m: Manager)
    requires Consistent(m)
    ensures |m.pageMap| == |Occupied(m)|
  {
    InjectiveCardinality(m.pageMap);
  }

  /** The page Pin stores is not the free-slot marker `Page{}`. This holds
      whenever the file has a name (NamedPinStoresPage); with an empty name
      it holds exactly when some field of the row reads as non-zero. */
  predicate PinStoresPage(m: Manager, disk: Disk, fileID: string, pageInFile: u64)
    requires PinDefined(m, disk, fileID, pageInFile)
  {
    var s := Pin(m, disk, fileID, pageInFile);
    s.result.Ok? ==> !IsEmpty(s.next.pages[s.result.value])
  }

  /** A page pinned from a named file carries that name, so it never looks
      like a free slot. */
  lemma NamedPinStoresPage(m: Manager, disk: Disk, fileID: string, pageInFile: u64)
    requires PinDefined(m, disk, fileID, pageInFile)
    requires fileID != ""
    ensures PinStoresPage(m, disk, fileID, pageInFile)
  {
    var s := Pin(m, disk, fileID, pageInFile);
    if s.result.Ok? {
      assert s.next.pages[s.result.value].name == fileID;
    }
  }

  /** Pinning, from a file with an empty name, a row whose 13 fields all read
      as 0 stores a page equal to `Page{}`: the map now names a slot that
      still looks free. */
  lemma BlankPinBreaksConsistency(m: Manager, disk: Disk, fileID: string, pageInFile: u64)
    requires PinDefined(m, disk, fileID, pageInFile)
    requires Pin(m, disk, fileID, pageInFile).result.Ok?
    requires !PinStoresPage(m, disk, fileID, pageInFile)
    ensures fileID == ""
    ensures !Consistent(Pin(m, disk, fileID, pageInFile).next)
  {
    var s := Pin(m, disk, fileID, pageInFile);
    var i := s.result.value;
    if fileID != "" {
      NamedPinStoresPage(m, disk, fileID, pageInFile);
      assert false;
    }
    assert s.next.pageMap[pageInFile] == i;
    assert i in s.next.pageMap.Values;
    assert i !in Occupied(s.next);
  }

  /** Pinning a row number not yet in the page map (from whatever file)
      keeps a consistent manager consistent, provided the stored page is not
      `Page{}`. */
  lemma {:induction false} PinKeepsConsistent(m: Manager, disk: Disk, fileID: string, pageInFile: u64)
    requires PinDefined(m, disk, fileID, pageInFile)
    requires Consistent(m)
    requires PinStoresPage(m, disk, fileID, pageInFile)
    requires pageInFile !in m.pageMap
    ensures Consistent(Pin(m, disk, fileID, pageInFile).next)
  {
    var s := Pin(m, disk, fileID, pageInFile);
    if s.result.Ok? {
      var i := s.result.value;
      var n := s.next;
      assert i !in Occupied(m);
      assert Occupied(n) == Occupied(m) + {i} by {
        forall j: u64 | 0 <= j < PoolSize
          ensures j in Occupied(n) <==> j in Occupied(m) + {i}
        {
          if j != i {
            assert n.pages[j] == m.pages[j];
          }
        }
      }
      assert n.pageMap.Values == m.pageMap.Values + {i} by {
        forall v | v in n.pageMap.Values ensures v in m.pageMap.Values + {i} {
          var k :| k in n.pageMap && n.pageMap[k] == v;
          if k != pageInFile {
            assert m.pageMap[k] == v;
          }
        }
        forall v | v in m.pageMap.Values ensures v in n.pageMap.Values {
          var k :| k in m.pageMap && m.pageMap[k] == v;
          assert k != pageInFile;
          assert n.pageMap[k] == v;
        }
        assert n.pageMap[pageInFile] == i;
      }
    }
  }

  /** On a consistent manager, Pin hands out a slot no mapped row is using. */
  lemma PinTakesUnmappedSlot(m: Manager, disk: Disk, fileID: string, pageInFile: u64)
    requires PinDefined(m, disk, fileID, pageInFile)
    requires Consistent(m)
    requires Pin(m, disk, fileID, pageInFile).result.Ok?
    ensures Pin(m, disk, fileID, pageInFile).result.value !in m.pageMap.Values
  {
    assert Pin(m, disk, fileID, pageInFile).result.value !in Occupied(m);
  }

  /** The page map is keyed by the row number alone, not by file. Pinning a
      row number that is already a key, from the same file or any other,
      fills a second slot but overwrites that key's single entry: the page in
      the earlier slot stays in memory with no row naming it. */
  lemma {:induction false} PinResidentRowBreaksConsistency(m: Manager, disk: Disk, fileID: string, pageInFile: u64)
    requires PinDefined(m, disk, fileID, pageInFile)
    requires Consistent(m)
    requires pageInFile in m.pageMap
    requires Pin(m, disk, fileID, pageInFile).result.Ok?
    ensures !Consistent(Pin(m, disk, fileID, pageInFile).next)
    ensures |Pin(m, disk, fileID, pageInFile).next.pageMap| == |m.pageMap|
    ensures var earlier := m.pageMap[pageInFile];
      earlier < PoolSize && !IsEmpty(m.pages[earlier]) &&
      Pin(m, disk, fileID, pageInFile).next.pages[earlier] == m.pages[earlier]
    ensures m.pageMap[pageInFile] !in Pin(m, disk, fileID, pageInFile).next.pageMap.Values
  {
    var s := Pin(m, disk, fileID, pageInFile);
    var i := s.result.value;
    var old_slot := m.pageMap[pageInFile];
    assert old_slot in Occupied(m);
    assert old_slot != i;
    assert s.next.pages[old_slot] == m.pages[old_slot];
    assert old_slot in Occupied(s.next);
    assert old_slot !in s.next.pageMap.Values;
    assert s.next.pageMap.Keys == m.pageMap.Keys;
  }

  /** Unpin keeps the bookkeeping consistent, and on a consistent manager it
      succeeds exactly on the occupied slots. */
  lemma {:induction false} UnpinKeepsConsistent(m: Manager, pageID: u64, order: seq<u64>)
    requires pageID < PoolSize
    requires RangeOrder(order, m.pageMap)
    requires Consistent(m)
    ensures Consistent(Unpin(m, pageID, order).next)
    ensures Unpin(m, pageID, order).result.Ok? <==> pageID in Occupied(m)
  {
    var s := Unpin(m, pageID, order);
    if !IsEmpty(m.pages[pageID]) {
      assert pageID in Occupied(m);
      var row :| row in m.pageMap && m.pageMap[row] == pageID && s.next.pageMap == m.pageMap - {row};
      assert Occupied(s.next) == Occupied(m) - {pageID} by {
        forall j: u64 | 0 <= j < PoolSize
          ensures j in Occupied(s.next) <==> j in Occupied(m) - {pageID}
        {
          if j != pageID {
            assert s.next.pages[j] == m.pages[j];
          }
        }
      }
      assert s.next.pageMap.Values == m.pageMap.Values - {pageID} by {
        forall v | v in m.pageMap.Values && v != pageID ensures v in s.next.pageMap.Values {
          var k :| k in m.pageMap && m.pageMap[k] == v;
          assert k != row;
          assert s.next.pageMap[k] == v;
        }
      }
    }
  }

  /** On a consistent manager, which key Go's map iteration happens to visit
      first does not change what Unpin does. */
  lemma UnpinOrderIrrelevant(m: Manager, pageID: u64, order1: seq<u64>, order2: seq<u64>)
    requires pageID < PoolSize
    requires RangeOrder(order1, m.pageMap) && RangeOrder(order2, m.pageMap)
    requires Consistent(m)
    ensures Unpin(m, pageID, order1) == Unpin(m, pageID, order2)
  {
    RemoveOrderIrrelevant(m.pageMap, pageID, order1, order2);
  }

  /** On a consistent manager, for a row number not yet in the page map
      (from whatever file) whose stored page is not `Page{}`, unpinning the
      slot Pin just filled puts the pool and the map back as they were. */
  lemma {:induction false} PinThenUnpinRestores(m: Manager, disk: Disk, fileID: string, pageInFile: u64, order: seq<u64>)
    requires PinDefined(m, disk, fileID, pageInFile)
    requires Consistent(m)
    requires PinStoresPage(m, disk, fileID, pageInFile)
    requires pageInFile !in m.pageMap
    requires Pin(m, disk, fileID, pageInFile).result.Ok?
    requires RangeOrder(order, Pin(m, disk, fileID, pageInFile).next.pageMap)
    ensures var s := Pin(m, disk, fileID, pageInFile);
      var u := Unpin(s.next, s.result.value, order);
      u.result.Ok? && u.next.pages == m.pages && u.next.pageMap == m.pageMap
  {
    var s := Pin(m, disk, fileID, pageInFile);
    var i := s.result.value;
    PinKeepsConsistent(m, disk, fileID, pageInFile);
    UnpinKeepsConsistent(s.next, i, order);
    var u := Unpin(s.next, i, order);
    var row :| row in s.next.pageMap && s.next.pageMap[row] == i && u.next.pageMap == s.next.pageMap - {row};
    PinTakesUnmappedSlot(m, disk, fileID, pageInFile);
    assert s.next.pageMap == m.pageMap[pageInFile := i];
    assert row == pageInFile;
    assert u.next.pages == m.pages by {
      forall j | 0 <= j < PoolSize ensures u.next.pages[j] == m.pages[j] {
        if j == i as int {
          assert IsEmpty(u.next.pages[j]);
        } else {
          assert u.next.pages[j] == s.next.pages[j];
        }
      }
    }
  }

  /** Once every slot is taken Pin is refused; unpinning any slot makes room,
      and the next successful Pin takes exactly that slot. */
  lemma FullPoolUnpinThenPin(m: Manager, pageID: u64, order: seq<u64>, disk: Disk, fileID: string, pageInFile: u64)
    requires pageID < PoolSize
    requires RangeOrder(order, m.pageMap)
    requires forall j :: 0 <= j < PoolSize ==> !IsEmpty(m.pages[j])
    requires PinDefined(Unpin(m, pageID, order).next, disk, fileID, pageInFile)
    ensures var p := Pin(Unpin(m, pageID, order).next, disk, fileID, pageInFile);
      p.result != Err(NoFreeSlot) && (p.result.Ok? ==> p.result.value == pageID)
  {
    var n := Unpin(m, pageID, order).next;
    assert IsEmpty(n.pages[pageID]);
  }
}

=== FILE: outcomes.dfy ===
/** Optional values, the buffer manager's error kinds, and results that carry
    either a value or one of those errors (Go's `(T, error)` pairs). */
module Outcomes {

  datatype Option<+T> = None | Some(value: T)

  /** One constructor per distinct error the buffer manager returns. */
  datatype Error =
    | IoError          // os.ReadFile could not read the named file
    | NoFileToClose    // Close with no file buffer held
    | NoFileToDelete   // Delete of a file that cannot be read
    | NoFreeSlot       // Pin found every slot occupied ("no file to pin")
    | NoPageAtSlot     // Unpin of a slot holding the empty page
    | NoMapEntry       // no row in the page map points at the slot
    | NoOpenFile       // deserialize without a file buffer or file name
    | WrongFieldCount  // the selected row does not have exactly 13 fields

  datatype Result<+T> = Ok(value: T) | Err(error: Error)
}

=== FILE: page.dfy ===
/** The in-memory record of one B-tree node: the file it came from, six
    keys and seven values, all uint64. */
module Pages {
  import opened Strconv

  const KeyCount: nat := 6
  const ValueCount: nat := 7

  type KeyArray = s: seq<u64> | |s| == KeyCount witness [0, 0, 0, 0, 0, 0]
  type ValueArray = s: seq<u64> | |s| == ValueCount witness [0, 0, 0, 0, 0, 0, 0]

  /** `name` is the file the page was read from. */
  datatype Page = Page(name: string, keys: KeyArray, values: ValueArray)

  /** The zero value `Page{}`, which marks a free buffer slot. */
  const Empty: Page := Page("", [0, 0, 0, 0, 0, 0], [0, 0, 0, 0, 0, 0, 0])

  predicate IsEmpty(p: Page) {
    p == Empty
  }

  /** A page is empty exactly when it names no file and every key and value is 0. */
  lemma EmptyMeansAllZero(p: Page)
    ensures IsEmpty(p) <==>
      p.name == "" && (forall k :: 0 <= k < KeyCount ==> p.keys[k] == 0)
                   && (forall k :: 0 <= k < ValueCount ==> p.values[k] == 0)
  {
    if p.name == "" && (forall k :: 0 <= k < KeyCount ==> p.keys[k] == 0)
                    && (forall k :: 0 <= k < ValueCount ==> p.values[k] == 0) {
      assert p.keys == Empty.keys;
      assert p.values == Empty.values;
    }
  }

  /** Every page has six key slots and one value slot more than key slots. */
  lemma Shape(p: Page)
    ensures |p.keys| == 6 && |p.values| == |p.keys| + 1
  {
  }
}

=== FILE: strconv.dfy ===
/** The part of Go's `strconv` package the row codec uses, in base 10:
    FormatUint, and ParseUint with its error discarded by the caller. */
module Strconv {

  const MaxU64: nat := 0xFFFF_FFFF_FFFF_FFFF

  /** Go's `uint64`. */
  type u64 = x: int | 0 <= x <= MaxU64

  predicate IsDigit(c: char) {
    '0' <= c <= '9'
  }

  predicate AllDigits(s: string) {
    forall k :: 0 <= k < |s| ==> IsDigit(s[k])
  }

  function DigitValue(c: char): (d: nat)
    requires IsDigit(c)
    ensures d < 10
  {
    c as int - '0' as int
  }

  function DigitChar(d: nat): (c: char)
    requires d < 10
    ensures IsDigit(c) && DigitValue(c) == d
  {
    ('0' as int + d) as char
  }

  /** The number a run of decimal digits denotes, most significant digit
      first; leading zeros are allowed. */
  function DecimalValue(s: string): (n: nat)
    requires AllDigits(s)
    decreases |s|
  {
    if |s| == 0 then 0 else 10 * DecimalValue(s[..|s| - 1]) + DigitValue(s[|s| - 1])
  }

  /** The canonical decimal spelling: digits only, and no leading zero
      unless the number is zero itself. */
  predicate IsCanonicalDecimal(s: string) {
    1 <= |s| && AllDigits(s) && (s[0] == '0' ==> |s| == 1)
  }

  /** strconv.FormatUint(n, 10). */
  function FormatUint(n: nat): (s: string)
    ensures IsCanonicalDecimal(s)
    ensures s[0] == '0' <==> n == 0
    decreases n
  {
    if n < 10 then [DigitChar(n)] else FormatUint(n / 10) + [DigitChar(n % 10)]
  }

  /** Reading back what FormatUint wrote gives the number. */
  lemma {:induction false} FormatUintValue(n: nat)
    ensures DecimalValue(FormatUint(n)) == n
    decreases n
  {
    if n >= 10 {
      FormatUintValue(n / 10);
      var s := FormatUint(n);
      assert s[..|s| - 1] == FormatUint(n / 10);
    }
  }

  /** A run of digits starting with a non-zero digit denotes at least 10^(|s|-1);
      in particular two or more such digits denote at least 10. */
  lemma {:induction false} LeadingDigitBound(s: string)
    requires AllDigits(s) && 1 <= |s| && s[0] != '0'
    ensures DecimalValue(s) >= 1
    ensures |s| >= 2 ==> DecimalValue(s) >= 10
    decreases |s|
  {
    if |s| >= 2 {
      LeadingDigitBound(s[..|s| - 1]);
    }
  }

  /** FormatUint spells every canonical decimal back exactly: with
      FormatUintValue, the two are inverse bijections between the naturals
      and the canonical spellings. */
  lemma {:induction false} FormatUintOfValue(s: string)
    requires IsCanonicalDecimal(s)
    ensures FormatUint(DecimalValue(s)) == s
    decreases |s|
  {
    if |s| >= 2 {
      var init := s[..|s| - 1];
      LeadingDigitBound(s);
      LeadingDigitBound(init);
      FormatUintOfValue(init);
      var n := DecimalValue(s);
      assert n / 10 == DecimalValue(init);
      assert n % 10 == DigitValue(s[|s| - 1]);
      assert s == init + [s[|s| - 1]];
    }
  }

  /** The run of decimal digits `s` starts with. */
  function LeadingDigits(s: string): (p: string)
    ensures |p| <= |s| && p == s[..|p|]
    ensures AllDigits(p)
    ensures |p| < |s| ==> !IsDigit(s[|p|])
    decreases |s|
  {
    if |s| == 0 || !IsDigit(s[0]) then ""
    else
      var rest := LeadingDigits(s[1..]);
      assert [s[0]] + rest == s[..1 + |rest|];
      [s[0]] + rest
  }

  /** Appending digits never makes a decimal smaller. */
  lemma {:induction false} DecimalValueMonotone(s: string, k: nat)
    requires AllDigits(s) && k <= |s|
    ensures DecimalValue(s[..k]) <= DecimalValue(s)
    decreases |s|
  {
    if k < |s| {
      var init := s[..|s| - 1];
      assert init[..k] == s[..k];
      DecimalValueMonotone(init, k);
      assert DecimalValue(s) == 10 * DecimalValue(init) + DigitValue(s[|s| - 1]);
    } else {
      assert s[..k] == s;
    }
  }

  /** strconv.ParseUint(s, 10, 64) with the error ignored, as its caller
      does. Go reads the digits left to right: a range error yields the
      largest uint64 as soon as the digits read so far exceed it, even if a
      non-digit follows; otherwise a syntax error (empty input, or any
      non-digit, signs included) yields 0. */
  function ParseUint(s: string): (n: u64)
    ensures s == "" ==> n == 0
    ensures DecimalValue(LeadingDigits(s)) > MaxU64 ==> n == MaxU64
    ensures DecimalValue(LeadingDigits(s)) <= MaxU64 && !AllDigits(s) ==> n == 0
    ensures AllDigits(s) && DecimalValue(s) <= MaxU64 ==> n == DecimalValue(s)
  {
    var p := LeadingDigits(s);
    assert AllDigits(s) ==> p == s;
    if s == "" then 0
    else if DecimalValue(p) > MaxU64 then MaxU64
    else if |p| < |s| then 0
    else assert p == s; DecimalValue(s)
  }

  /** The loop of Go's ParseUint in base 10, digit by digit, with its cutoff
      test before multiplying and its range test after adding; it agrees
      with ParseUint on every input. */
  method ParseUintScan(s: string) returns (n: u64)
    ensures n == ParseUint(s)
  {
    if s == "" {
      return 0;
    }
    var cutoff := MaxU64 / 10 + 1;
    n := 0;
    var i := 0;
    while i < |s|
      invariant 0 <= i <= |s|
      invariant AllDigits(s[..i])
      invariant n == DecimalValue(s[..i])
    {
      if !IsDigit(s[i]) {
        assert LeadingDigits(s) == s[..i];
        return 0;
      }
      assert s[..i + 1][..i] == s[..i];
      assert AllDigits(s[..i + 1]);
      var p := LeadingDigits(s);
      assert |p| >= i + 1 && p[..i + 1] == s[..i + 1];
      if n >= cutoff {
        DecimalValueMonotone(p, i + 1);
        return MaxU64;
      }
      var n1 := 10 * n + DigitValue(s[i]);
      if n1 > MaxU64 {
        DecimalValueMonotone(p, i + 1);
        return MaxU64;
      }
      n := n1;
      i := i + 1;
    }
    assert s[..i] == s;
  }

  /** A field whose digits overflow before its first non-digit, such as
      `18446744073709551616x`, parses as the largest uint64, not as 0. */
  lemma OverflowBeforeNonDigit(digits: string, c: char, rest: string)
    requires AllDigits(digits) && DecimalValue(digits) > MaxU64
    requires !IsDigit(c)
    ensures ParseUint(digits + [c] + rest) == MaxU64
  {
    LeadingDigitsOf(digits, [c] + rest);
    assert digits + [c] + rest == digits + ([c] + rest);
  }

  /** The digit prefix of `digits + tail` is `digits` when `tail` does not
      start with a digit. */
  lemma {:induction false} LeadingDigitsOf(digits: string, tail: string)
    requires AllDigits(digits)
    requires tail == "" || !IsDigit(tail[0])
    ensures LeadingDigits(digits + tail) == digits
    decreases |digits|
  {
    if digits != "" {
      assert (digits + tail)[1..] == digits[1..] + tail;
      LeadingDigitsOf(digits[1..], tail);
    }
  }

  /** ParseUint reads FormatUint's output back. */
  lemma ParseFormatUint(n: u64)
    ensures ParseUint(FormatUint(n)) == n
  {
    FormatUintValue(n);
  }
}

=== FILE: strings.dfy ===
/** The part of Go's `strings` package the row codec uses: splitting on a
    one-character separator, and the two ways of gluing pieces back
    together. Go strings are byte strings; the separators used here (`\n`
    and `;`) are single ASCII bytes, so working per character is the same. */
module Strings {

  /** Position of the first `c` in `s`, or `|s|` when `c` does not occur. */
  function IndexOf(s: string, c: char): (i: nat)
    ensures i <= |s|
    ensures i < |s| ==> s[i] == c
    ensures forall j :: 0 <= j < i ==> s[j] != c
  {
    if |s| == 0 then 0
    else if s[0] == c then 0
    else 1 + IndexOf(s[1..], c)
  }

  /** `parts` with one `sep` between neighbours (strings.Join). */
  function Join(parts: seq<string>, sep: char): (s: string)
    requires |parts| >= 1
    decreases |parts|
  {
    if |parts| == 1 then parts[0] else parts[0] + [sep] + Join(parts[1..], sep)
  }

  /** Every part followed by `sep`: what a loop appending `part + sep` builds. */
  function Terminated(parts: seq<string>, sep: char): (s: string)
    decreases |parts|
  {
    if |parts| == 0 then "" else parts[0] + [sep] + Terminated(parts[1..], sep)
  }

  ghost predicate FreeOf(parts: seq<string>, sep: char) {
    forall k :: 0 <= k < |parts| ==> sep !in parts[k]
  }

  /** strings.Split(s, string(sep)): the pieces between separators, so the
      empty string gives one empty piece and a trailing separator gives a
      trailing empty piece. */
  function Split(s: string, sep: char): (parts: seq<string>)
    ensures |parts| >= 1
    ensures FreeOf(parts, sep)
    ensures Join(parts, sep) == s
    decreases |s|
  {
    var i := IndexOf(s, sep);
    if i == |s| then [s]
    else
      var rest := Split(s[i + 1..], sep);
      assert sep !in s[..i] by {
        forall j | 0 <= j < i ensures s[..i][j] != sep { }
      }
      assert ([s[..i]] + rest)[1..] == rest;
      assert s == s[..i] + [sep] + s[i + 1..];
      [s[..i]] + rest
  }

  /** A separator-free string is a single piece. */
  lemma SplitSingle(s: string, sep: char)
    requires sep !in s
    ensures Split(s, sep) == [s]
  {
  }

  /** A separator-free head followed by a separator is split off as the first piece. */
  lemma SplitCons(head: string, sep: char, tail: string)
    requires sep !in head
    ensures Split(head + [sep] + tail, sep) == [head] + Split(tail, sep)
  {
    var s := head + [sep] + tail;
    var i := IndexOf(s, sep);
    assert s[|head|] == sep;
    assert s[..i] == head;
    assert s[i + 1..] == tail;
  }

  lemma MultisetCons(head: string, c: char, tail: string)
    requires c !in head
    ensures multiset(head + [c] + tail)[c] == 1 + multiset(tail)[c]
  {
    assert multiset(head + [c] + tail) == multiset(head) + multiset([c]) + multiset(tail);
  }

  /** Split yields one piece more than there are separators. */
  lemma {:induction false} SplitCount(s: string, sep: char)
    ensures |Split(s, sep)| == multiset(s)[sep] + 1
    decreases |s|
  {
    if sep in s {
      var i := IndexOf(s, sep);
      assert i < |s|;
      var head, tail := s[..i], s[i + 1..];
      assert s == head + [sep] + tail;
      assert sep !in head by {
        forall j | 0 <= j < |head| ensures head[j] != sep { }
      }
      SplitCons(head, sep, tail);
      MultisetCons(head, sep, tail);
      SplitCount(tail, sep);
    } else {
      SplitSingle(s, sep);
    }
  }

  /** Split undoes Join when no piece contains the separator. */
  lemma {:induction false} SplitJoin(parts: seq<string>, sep: char)
    requires |parts| >= 1
    requires FreeOf(parts, sep)
    ensures Split(Join(parts, sep), sep) == parts
    decreases |parts|
  {
    if |parts| == 1 {
      SplitSingle(parts[0], sep);
    } else {
      SplitCons(parts[0], sep, Join(parts[1..], sep));
      SplitJoin(parts[1..], sep);
      assert parts == [parts[0]] + parts[1..];
    }
  }

  /** Terminating every piece is joining them and appending one more separator. */
  lemma {:induction false} TerminatedIsJoin(parts: seq<string>, sep: char)
    requires |parts| >= 1
    ensures Terminated(parts, sep) == Join(parts, sep) + [sep]
    ensures Terminated(parts, sep) == Join(parts + [""], sep)
    decreases |parts|
  {
    if |parts| == 1 {
      assert Join(parts + [""], sep) == parts[0] + [sep] + Join([""], sep) by {
        assert (parts + [""])[1..] == [""];
      }
    } else {
      TerminatedIsJoin(parts[1..], sep);
      assert (parts + [""])[1..] == parts[1..] + [""];
    }
  }

  /** Splitting separator-terminated pieces gives them back, plus the empty
      piece after the last separator. */
  lemma SplitTerminated(parts: seq<string>, sep: char)
    requires FreeOf(parts, sep)
    ensures Split(Terminated(parts, sep), sep) == parts + [""]
  {
    if |parts| == 0 {
      assert IndexOf("", sep) == 0;
    } else {
      TerminatedIsJoin(parts, sep);
      SplitJoin(parts + [""], sep);
    }
  }

  /** Terminating pieces with `sep` introduces no character other than `sep`. */
  lemma {:induction false} TerminatedFreeOf(parts: seq<string>, sep: char, c: char)
    requires c != sep
    requires FreeOf(parts, c)
    ensures c !in Terminated(parts, sep)
    decreases |parts|
  {
    if |parts| > 0 {
      TerminatedFreeOf(parts[1..], sep, c);
      var s := Terminated(parts, sep);
      assert s == parts[0] + [sep] + Terminated(parts[1..], sep);
      assert c !in parts[0];
    }
  }
}
